=== FILE: README.md ===
# ztoken AWS credential provider — Dafny model

This project models the two pieces of sequential logic in the ztoken AWS
credential provider:

* **The bearer-token cache of `ZtokenProvider`.** It holds at most one
  immutable `Entry(timestamp, value)`. Each `getAccessToken` call applies a
  pure decision to the entry. If there is no entry, or the entry is more than
  `CACHE_DURATION` (5 minutes) old, the decision runs `ztoken token` and stores
  `Entry(now, token)`. Otherwise it keeps the entry. A failed command leaves
  the cache as it was. The token is the command's output trimmed as Java's
  `String.trim` trims it.
* **`ZtokenAWSCredentialProvider`'s configuration and requests.** The
  `Builder` refuses a null account id or role name. Its setters each change
  one optional setting. The constructor fills in the default HTTP client,
  token provider and service URL for the settings left null. A credentials
  refresh sends `GET {base}/aws-accounts/{accountId}/roles/{roleName}/credentials`
  with `Authorization: Bearer {token}`. The parsed credentials reach the
  caller unchanged.

Modules, one per concern:

| file | module | models |
|---|---|---|
| `results.dfy` | `Results` | null references (`Option`) and throwing calls (`Result`) |
| `java_text.dfy` | `JavaText` | `String.trim`, as a function and as the JDK's two-scan loop |
| `token_command.dfy` | `TokenCommand` | `zign()`: from how the process ended to a token or an error |
| `token_cache.dfy` | `TokenCache` | `Entry`, `CACHE_DURATION`, `update`, `getAccessToken`, sequences of calls |
| `credential_provider.dfy` | `CredentialProvider` | `Builder`, the constructor, `retrieveCredentials`, `getCredentials` |
| `scenarios.dfy` | `ProviderScenarios` | the unit tests' scenarios |

These are parameters rather than behaviour: the current time `now` in
milliseconds; how one run of the token command ended (`ProcessRun`); whether
`java.net.URI` accepts a string (`isUri`); and the HTTP exchange together
with JSON parsing (`exchange: Request -> Result<Credentials, FetchError>`).
The cache is modelled as a value passed in and returned, not as an atomic
reference.

Two facts about the code that the model states exactly:

* The expiry test at `ZtokenProvider.java:48` is `timestamp < now - CACHE_DURATION`,
  so the 5-minute window is inclusive: an entry exactly 300000 ms old is still
  served (`TokenCache.ServedAtExactExpiry`) and one 300001 ms old is not
  (`TokenCache.RefreshedJustAfterExpiry`).
* The cache runs the command as written (`TokenCommand.ZignAsWritten`). A
  `ztoken` process still running after the 5-second wait makes `exitValue()`
  throw the unchecked `IllegalThreadStateException`, which passes both catch
  clauses and escapes `getAccessToken`. The exception message at
  `ZtokenProvider.java:41` shows that a process exceeding 5 seconds was meant
  to be an `IOException`; the corrected command (`TokenCommand.Zign`) and the
  cache built on it (`TokenCache.CorrectedCacheFailsOnlyWithIOException`)
  state that behaviour. See Findings.

## Model

| member | source | states |
|---|---|---|
| JavaText.Trim | src/main/java/com/amazonaws/auth/ZtokenProvider.java:33 | the trimmed output neither starts nor ends with a character at or below U+0020, and every character cut from either end is at or below U+0020 |
| JavaText.TrimUnique | src/main/java/com/amazonaws/auth/ZtokenProvider.java:33 | any bounds with only trimmable characters outside them and non-trimmable characters at both ends delimit exactly the trimmed string |
| JavaText.TrimIdempotent | src/main/java/com/amazonaws/auth/ZtokenProvider.java:33 | trimming a trimmed string changes nothing |
| JavaText.TrimBounds | src/main/java/com/amazonaws/auth/ZtokenProvider.java:33 | the JDK's two scans (skip leading, then back off trailing trimmable characters) compute bounds that meet that characterisation and select the same string as `Trim` |
| TokenCommand.ZignAsWritten | src/main/java/com/amazonaws/auth/ZtokenProvider.java:29-43 | as written: a token exactly when the command exits with 0, and then the trimmed output; a non-zero exit yields an error carrying that exit code; a process still running after the wait yields `IllegalThreadStateException` |
| TokenCommand.Zign | src/main/java/com/amazonaws/auth/ZtokenProvider.java:29-43 | corrected version (see Findings): a token exactly when the command exits with 0, and it is the trimmed output with no whitespace at either end; a non-zero exit yields an error carrying that exit code; every failure is an IOException |
| TokenCommand.TimeoutEscapesAsUnchecked | src/main/java/com/amazonaws/auth/ZtokenProvider.java:34-36 | a process still running after the 5-second wait makes the code fail with an error that is not an IOException |
| TokenCommand.ZignDiffersOnlyOnTimeout | src/main/java/com/amazonaws/auth/ZtokenProvider.java:34-41 | the corrected command agrees with the code on every run except a process still running after the wait |
| TokenCache.Update | src/main/java/com/amazonaws/auth/ZtokenProvider.java:45-52 | an entry at most 5 minutes old is returned unchanged and the command's outcome is not consulted; with no entry or an older one, the result is `Entry(now, token)` when the command yields a token and the command's error otherwise; any entry returned is fresh at `now` |
| TokenCache.GetAccessToken | src/main/java/com/amazonaws/auth/ZtokenProvider.java:45-61 | the returned token is the value of the entry the cache now holds; a failure leaves the cache unchanged, and it is an IOException exactly when the process is not still running after the wait; a fresh entry's token is returned whatever the command would do; an empty or stale cache succeeds exactly when the command exits with 0 and then holds `Entry(now, token)`, the token being the trimmed output; a refresh whose process is still running fails with `IllegalThreadStateException` |
| TokenCache.CorrectedCacheFailsOnlyWithIOException | src/main/java/com/amazonaws/auth/ZtokenProvider.java:41-50 | corrected version (see Findings): with the corrected command every cache failure is an IOException, and the cache decides as the code does except on a refresh whose process is still running after the wait |
| TokenCache.ServedAtExactExpiry | src/main/java/com/amazonaws/auth/ZtokenProvider.java:48 | an entry exactly 300000 ms old is still served and the cache is unchanged |
| TokenCache.RefreshedJustAfterExpiry | src/main/java/com/amazonaws/auth/ZtokenProvider.java:48 | at 300001 ms the entry is replaced by `Entry(now, trimmed output)`, or kept if the command fails |
| TokenCache.Replay | src/main/java/com/amazonaws/auth/ZtokenProvider.java:54-61 | successive calls on one cache give one result per call, and the command runs at most once per call |
| TokenCache.FreshEntryServesAll | src/main/java/com/amazonaws/auth/ZtokenProvider.java:45-57 | every call made while an entry is fresh returns that entry's token; the command never runs and the entry stays |
| TokenCache.OneRunPerWindow | src/main/java/com/amazonaws/auth/ZtokenProvider.java:45-57 | from an empty cache, when the first call gets a token, every call within 5 minutes of it returns the identical token and the command runs once in all |
| CredentialProvider.NewBuilder | src/main/java/com/amazonaws/auth/ZtokenAWSCredentialProvider.java:75-82 | construction fails exactly when the account id or the role name is null; otherwise both are kept as given and no optional setting is set |
| CredentialProvider.WithHttpClient | src/main/java/com/amazonaws/auth/ZtokenAWSCredentialProvider.java:84-87 | sets the HTTP client and leaves every other field unchanged |
| CredentialProvider.WithCredentialsProvider | src/main/java/com/amazonaws/auth/ZtokenAWSCredentialProvider.java:89-92 | sets the token provider and leaves every other field unchanged |
| CredentialProvider.WithCredentialsService | src/main/java/com/amazonaws/auth/ZtokenAWSCredentialProvider.java:94-97 | sets the service URL and leaves every other field unchanged |
| CredentialProvider.SettersCommute | src/main/java/com/amazonaws/auth/ZtokenAWSCredentialProvider.java:84-97 | two different setters give the same builder in either order |
| CredentialProvider.LastSettingWins | src/main/java/com/amazonaws/auth/ZtokenAWSCredentialProvider.java:84-97 | calling a setter twice leaves only the second value |
| CredentialProvider.Build | src/main/java/com/amazonaws/auth/ZtokenAWSCredentialProvider.java:33-38 | the identifiers are copied; each optional setting keeps a supplied value, and only a null one is replaced by its default, the service URL by `https://aws-credentials.stups.zalan.do` |
| CredentialProvider.IdentifiersReachProvider | src/main/java/com/amazonaws/auth/ZtokenAWSCredentialProvider.java:33-35 | whatever the setters do, the provider holds the account id and role name given to the Builder |
| CredentialProvider.RequestUrl | src/main/java/com/amazonaws/auth/ZtokenAWSCredentialProvider.java:61 | the URL is, in order and with nothing else, the base, `/aws-accounts/`, the account id, `/roles/`, the role name and `/credentials`; account id and role name fill exactly their segments |
| CredentialProvider.RequestUrlInjective | src/main/java/com/amazonaws/auth/ZtokenAWSCredentialProvider.java:61 | under one base, and for account ids without '/', equal URLs mean the same account id and the same role name |
| CredentialProvider.AuthorizationHeader | src/main/java/com/amazonaws/auth/ZtokenAWSCredentialProvider.java:62 | the header value is the `Bearer ` prefix followed by exactly the token |
| CredentialProvider.AuthorizationHeaderRoundTrip | src/main/java/com/amazonaws/auth/ZtokenAWSCredentialProvider.java:62 | the header carries exactly the token it was built from, and every bearer header is the one built from the token it carries |
| CredentialProvider.RetrieveCredentials | src/main/java/com/amazonaws/auth/ZtokenAWSCredentialProvider.java:59-66 | the token comes from the provider's token cache; with no token, no request is sent and the token error is raised; a URL that is not a URI sends nothing and fails with that URL; otherwise one request goes to the account/role URL with a bearer header carrying that token, and the exchange's credentials or error are returned unchanged |
| CredentialProvider.SessionCredentialsOf | src/main/java/com/amazonaws/auth/ZtokenAWSCredentialProvider.java:44 | the session credentials carry the access key id, secret key and session token of the fetched credentials |
| CredentialProvider.GetCredentials | src/main/java/com/amazonaws/auth/ZtokenAWSCredentialProvider.java:43-45 | a call answered by a blocking refresh succeeds exactly when the retrieval does, passes its three secrets through unchanged, and surfaces its error otherwise |
| ProviderScenarios.MissingIdentifierRejected | src/test/java/com/amazonaws/auth/TestZtokenCredentialProvider.java:31-39 | a Builder without a role name, or without an account id, is refused at construction |
| ProviderScenarios.RoleNameWithSpaceSendsNothing | src/main/java/com/amazonaws/auth/ZtokenAWSCredentialProvider.java:61 | a role name with a space yields a URL no URI parser accepts, so nothing is sent and the call fails with that URL |
| ProviderScenarios.SuccessfulCredentials | src/test/java/com/amazonaws/auth/TestZtokenCredentialProvider.java:41-66 | with a supplied HTTP client answering keys "keyid"/"key" and session token "test", the provider returns exactly those, having asked the default service for account 1111111, role test |

## Left out

- Process handling: `ProcessBuilder`, the `readAll` loop, UTF-8 decoding and the real 5-second wait are not modelled. A run of `ztoken token` is described only by how it ended (`TokenCommand.ProcessRun`).
- Concurrency: the `AtomicReference.updateAndGet` cache is modelled sequentially. Racing callers that both refresh an expired entry are not modelled.
- The clock: `System.currentTimeMillis()` is the parameter `now`.
- TokenCache.Update: timestamps are unbounded integers. The 64-bit subtraction `now - CACHE_DURATION` is not wrapped; it could overflow only for times near `Long.MIN_VALUE`, never for wall-clock milliseconds.
- The HTTP client, its transport and the Jackson JSON mapping are third-party libraries. Together they are the `exchange` parameter, and `Credentials` is an opaque record.
- `RefreshableTask` and the `ShouldDoBlockingSessionRefresh` / `ShouldDoAsyncSessionRefresh` predicates are AWS SDK classes that are not part of this model. So `refresh()` (`forceGetValue`), the held value and background refreshes are not modelled.
- CredentialProvider.GetCredentials: models only a call that the refreshable task answers with a blocking refresh, as it does on the first call. A call answered from the task's held value is `SessionCredentialsOf` applied to that value.
- `SessionCredentialsHolder` is not part of this model. `SessionCredentialsOf` assumes its `getSessionCredentials` carries the three strings over unchanged, as the unit test expects.
- Object identity: the `with*` setters return the same mutable builder (`this`). The model returns the updated value. Aliasing of a builder shared between callers is not modelled.
- CredentialProvider.RetrieveCredentials: which strings `java.net.URI` accepts is the parameter `isUri`; the URI grammar itself is not modelled.
- HTTP clients and token providers are opaque handles (`HttpClient`, `TokenProvider`). A supplied token provider's own cache is the `cache` argument of `RetrieveCredentials`.
- Logging and the text of exception messages.

## Findings

| source | as written | input that shows it | evidently intended | confidence | as-written member | corrected member |
|---|---|---|---|---|---|---|
| src/main/java/com/amazonaws/auth/ZtokenProvider.java:34-36 | the boolean result of `waitFor(5, SECONDS)` is ignored, so `exitValue()` is called on a process that may still be running, and that throws the unchecked `IllegalThreadStateException`; it escapes `getAccessToken`, which declares only `IOException` | a `ztoken` process that closes its output but is still running after 5 seconds (`StillRunning`) | report the timeout as an `IOException`, as the message at line 41 ("took longer than 5 seconds") intends | medium (Java API semantics of `Process.waitFor`/`exitValue`); not executed | TokenCommand.ZignAsWritten, TokenCommand.TimeoutEscapesAsUnchecked, TokenCache.GetAccessToken | TokenCommand.Zign, TokenCommand.ZignDiffersOnlyOnTimeout, TokenCache.CorrectedCacheFailsOnlyWithIOException |

=== FILE: credential_provider.dfy ===
/** ZtokenAWSCredentialProvider: the Builder that validates and collects the
    configuration, the constructor that fills in defaults, and the request a
    credentials refresh sends to the credentials service. The HTTP exchange
    (transport and JSON parsing) is a function parameter. */
module CredentialProvider {
  import opened Results
  import opened TokenCommand
  import opened TokenCache

  /** The credentials service used when none is configured. */
  const DefaultServiceUrl: string := "https://aws-credentials.stups.zalan.do"

  /** An HTTP client: the one the constructor creates, or one the caller supplied. */
  datatype HttpClient = DefaultHttpClient | SuppliedHttpClient(id: nat)

  /** A token provider: the ZtokenProvider the constructor creates, or one the
      caller supplied. */
  datatype TokenProvider = DefaultZtokenProvider | SuppliedZtokenProvider(id: nat)

  /** The Builder once constructed: the two identifiers are present, the three
      optional settings may still be null. */
  datatype Builder = Builder(
    accountId: string,
    roleName: string,
    httpClient: Option<HttpClient>,
    credentialsProvider: Option<TokenProvider>,
    credentialsServiceUrl: Option<string>)

  /** The NullPointerException the Builder throws for a missing identifier. */
  datatype ConfigError = MissingAccountIdOrRoleName

  /** `new Builder(accountId, roleName)`: fails when either is null; otherwise
      holds both exactly as given and nothing else is set. */
  function NewBuilder(accountId: Option<string>, roleName: Option<string>): (r: Result<Builder, ConfigError>)
    ensures r.Err? <==> accountId.None? || roleName.None?
    ensures r.Ok? ==> Some(r.value.accountId) == accountId && Some(r.value.roleName) == roleName
    ensures r.Ok? ==> r.value.httpClient.None? && r.value.credentialsProvider.None? && r.value.credentialsServiceUrl.None?
  {
    if accountId.None? || roleName.None? then
      Err(MissingAccountIdOrRoleName)
    else
      Ok(Builder(accountId.value, roleName.value, None, None, None))
  }

  /** `withHttpClient`: sets the HTTP client (possibly to null) and nothing else. */
  function WithHttpClient(b: Builder, client: Option<HttpClient>): (r: Builder)
    ensures r.httpClient == client
    ensures r.accountId == b.accountId && r.roleName == b.roleName
    ensures r.credentialsProvider == b.credentialsProvider && r.credentialsServiceUrl == b.credentialsServiceUrl
  {
    b.(httpClient := client)
  }

  /** `withCredentialsProvider`: sets the token provider and nothing else. */
  function WithCredentialsProvider(b: Builder, provider: Option<TokenProvider>): (r: Builder)
    ensures r.credentialsProvider == provider
    ensures r.accountId == b.accountId && r.roleName == b.roleName
    ensures r.httpClient == b.httpClient && r.credentialsServiceUrl == b.credentialsServiceUrl
  {
    b.(credentialsProvider := provider)
  }

  /** `withCredentialsService`: sets the service URL and nothing else. */
  function WithCredentialsService(b: Builder, url: Option<string>): (r: Builder)
    ensures r.credentialsServiceUrl == url
    ensures r.accountId == b.accountId && r.roleName == b.roleName
    ensures r.httpClient == b.httpClient && r.credentialsProvider == b.credentialsProvider
  {
    b.(credentialsServiceUrl := url)
  }

  /** The setters touch disjoint fields, so the order they are called in does
      not matter. */
  lemma SettersCommute(b: Builder, c: Option<HttpClient>, p: Option<TokenProvider>, u: Option<string>)
    ensures WithHttpClient(WithCredentialsProvider(b, p), c) == WithCredentialsProvider(WithHttpClient(b, c), p)
    ensures WithHttpClient(WithCredentialsService(b, u), c) == WithCredentialsService(WithHttpClient(b, c), u)
    ensures WithCredentialsProvider(WithCredentialsService(b, u), p) == WithCredentialsService(WithCredentialsProvider(b, p), u)
  {
  }

  /** Calling a setter a second time replaces the first value. */
  lemma LastSettingWins(b: Builder, c1: Option<HttpClient>, c2: Option<HttpClient>,
                        p1: Option<TokenProvider>, p2: Option<TokenProvider>,
                        u1: Option<string>, u2: Option<string>)
    ensures WithHttpClient(WithHttpClient(b, c1), c2) == WithHttpClient(b, c2)
    ensures WithCredentialsProvider(WithCredentialsProvider(b, p1), p2) == WithCredentialsProvider(b, p2)
    ensures WithCredentialsService(WithCredentialsService(b, u1), u2) == WithCredentialsService(b, u2)
  {
  }

  /** A constructed provider's configuration. */
  datatype Provider = Provider(
    accountId: string,
    roleName: string,
    httpClient: HttpClient,
    credentialsProvider: TokenProvider,
    credentialsServiceUrl: string)

  /** `build()`, i.e. the constructor: identifiers are copied; each optional
      setting keeps its supplied value and falls back to its default only when
      it was left null. */
  function Build(b: Builder): (p: Provider)
    ensures p.accountId == b.accountId && p.roleName == b.roleName
    ensures b.httpClient.Some? ==> p.httpClient == b.httpClient.value
    ensures b.httpClient.None? ==> p.httpClient == DefaultHttpClient
    ensures b.credentialsProvider.Some? ==> p.credentialsProvider == b.credentialsProvider.value
    ensures b.credentialsProvider.None? ==> p.credentialsProvider == DefaultZtokenProvider
    ensures b.credentialsServiceUrl.Some? ==> p.credentialsServiceUrl == b.credentialsServiceUrl.value
    ensures b.credentialsServiceUrl.None? ==> p.credentialsServiceUrl == DefaultServiceUrl
  {
    Provider(
      b.accountId,
      b.roleName,
      if b.httpClient.Some? then b.httpClient.value else DefaultHttpClient,
      if b.credentialsProvider.Some? then b.credentialsProvider.value else DefaultZtokenProvider,
      if b.credentialsServiceUrl.Some? then b.credentialsServiceUrl.value else DefaultServiceUrl)
  }

  /** Whatever the setters did, the identifiers given to `new Builder` reach
      the provider unchanged. */
  lemma IdentifiersReachProvider(accountId: string, roleName: string,
                                 c: Option<HttpClient>, p: Option<TokenProvider>, u: Option<string>)
    ensures var b := NewBuilder(Some(accountId), Some(roleName)).value;
      var provider := Build(WithCredentialsService(WithCredentialsProvider(WithHttpClient(b, c), p), u));
      provider.accountId == accountId && provider.roleName == roleName
  {
  }

  /** The path segment that introduces the account id. */
  const AccountsSegment: string := "/aws-accounts/"
  /** The path segment between the account id and the role name. */
  const RolesSegment: string := "/roles/"
  /** The path segment that ends every credentials URL. */
  const CredentialsSegment: string := "/credentials"

  /** The credentials URL for an account and role under a service base URL. */
  function RequestUrl(base: string, accountId: string, roleName: string): (r: string)
    ensures |r| == |base| + |AccountsSegment| + |accountId| + |RolesSegment| + |roleName| + |CredentialsSegment|
    ensures r[..|base|] == base
    ensures var i := |base| + |AccountsSegment|;
      && r[|base|..i] == AccountsSegment
      && r[i..i + |accountId|] == accountId
      && r[i + |accountId|..i + |accountId| + |RolesSegment|] == RolesSegment
      && r[i + |accountId| + |RolesSegment|..|r| - |CredentialsSegment|] == roleName
    ensures r[|r| - |CredentialsSegment|..] == CredentialsSegment
  {
    base + AccountsSegment + accountId + RolesSegment + roleName + CredentialsSegment
  }

  /** The position of the first '/' in `s`, or |s| when there is none. */
  function FirstSlash(s: string): (i: nat)
    ensures i <= |s|
    ensures i < |s| ==> s[i] == '/'
    ensures forall k :: 0 <= k < i ==> s[k] != '/'
    decreases |s|
  {
    if |s| == 0 || s[0] == '/' then 0 else 1 + FirstSlash(s[1..])
  }

  /** In a segment with no '/' followed by a '/', the first '/' ends the segment. */
  lemma {:induction false} FirstSlashAfterSegment(a: string, x: string)
    requires '/' !in a && |x| > 0 && x[0] == '/'
    ensures FirstSlash(a + x) == |a|
    decreases |a|
  {
    if |a| > 0 {
      assert (a + x)[0] == a[0];
      assert (a + x)[1..] == a[1..] + x;
      FirstSlashAfterSegment(a[1..], x);
    }
  }

  /** If `a1` and `a2` contain no '/' and each is followed by a '/', equal
      concatenations split at the same place. */
  lemma SplitAtFirstSlash(a1: string, x1: string, a2: string, x2: string)
    requires '/' !in a1 && '/' !in a2
    requires |x1| > 0 && x1[0] == '/' && |x2| > 0 && x2[0] == '/'
    requires a1 + x1 == a2 + x2
    ensures a1 == a2 && x1 == x2
  {
    FirstSlashAfterSegment(a1, x1);
    FirstSlashAfterSegment(a2, x2);
    assert a1 == (a1 + x1)[..|a1|];
    assert a2 == (a2 + x2)[..|a2|];
    assert x1 == (a1 + x1)[|a1|..];
    assert x2 == (a2 + x2)[|a2|..];
  }

  /** Equal strings with a common prefix agree after it. */
  lemma CancelPrefix(p: string, u: string, v: string)
    requires p + u == p + v
    ensures u == v
  {
    assert u == (p + u)[|p|..];
    assert v == (p + v)[|p|..];
  }

  /** Equal strings with a common suffix agree before it. */
  lemma CancelSuffix(u: string, v: string, q: string)
    requires u + q == v + q
    ensures u == v
  {
    assert u == (u + q)[..|u|];
    assert v == (v + q)[..|v|];
  }

  /** The URL regrouped as the fixed prefix, the account id, and the part
      from "/roles/" on. */
  lemma RequestUrlParts(base: string, accountId: string, roleName: string)
    ensures RequestUrl(base, accountId, roleName)
         == (base + AccountsSegment) + (accountId + (RolesSegment + (roleName + CredentialsSegment)))
  {
  }

  /** The URL identifies the account and role: for account ids without a '/'
      (such as the numeric ids of the service), two requests under the same
      base go to the same URL only for the same account and role. */
  lemma RequestUrlInjective(base: string, a1: string, r1: string, a2: string, r2: string)
    requires '/' !in a1 && '/' !in a2
    requires RequestUrl(base, a1, r1) == RequestUrl(base, a2, r2)
    ensures a1 == a2 && r1 == r2
  {
    var x1 := RolesSegment + (r1 + CredentialsSegment);
    var x2 := RolesSegment + (r2 + CredentialsSegment);
    RequestUrlParts(base, a1, r1);
    RequestUrlParts(base, a2, r2);
    CancelPrefix(base + AccountsSegment, a1 + x1, a2 + x2);
    SplitAtFirstSlash(a1, x1, a2, x2);
    CancelPrefix(RolesSegment, r1 + CredentialsSegment, r2 + CredentialsSegment);
    CancelSuffix(r1, r2, CredentialsSegment);
  }

  /** What precedes the token in the Authorization header value. */
  const BearerPrefix: string := "Bearer "

  /** The Authorization header value that presents a bearer token. */
  function AuthorizationHeader(token: string): (h: string)
    ensures |h| == |BearerPrefix| + |token| && h[..|BearerPrefix|] == BearerPrefix
    ensures h[|BearerPrefix|..] == token
  {
    BearerPrefix + token
  }

  /** The token a bearer Authorization header value carries, if it is one. */
  function BearerToken(header: string): Option<string> {
    var n := |BearerPrefix|;
    if |header| >= n && header[..n] == BearerPrefix then Some(header[n..]) else None
  }

  /** The header carries exactly the token it was built from, and every
      bearer header is the one built from the token it carries. */
  lemma AuthorizationHeaderRoundTrip(token: string, header: string)
    ensures BearerToken(AuthorizationHeader(token)) == Some(token)
    ensures BearerToken(header) == Some(token) ==> AuthorizationHeader(token) == header
  {
    var n := |BearerPrefix|;
    assert AuthorizationHeader(token)[n..] == token;
    if BearerToken(header) == Some(token) {
      assert header == header[..n] + header[n..];
    }
  }

  /** The GET request a refresh sends. */
  datatype Request = Request(url: string, authorization: string)

  /** The credentials the service returns, as parsed from its response. */
  datatype Credentials = Credentials(accessKeyId: string, secretAccessKey: string, sessionToken: string, expiration: int)

  /** The session credentials handed to callers. */
  datatype SessionCredentials = SessionCredentials(accessKeyId: string, secretKey: string, sessionToken: string)

  /** Why the HTTP exchange produced no credentials. */
  datatype FetchError = TransportFailed | MalformedResponse

  /** Why a refresh failed: no token could be obtained, the request URL is
      not a URI (HttpGet's IllegalArgumentException), or the exchange failed. */
  datatype ProviderError =
    | TokenUnavailable(tokenError: TokenError)
    | MalformedUrl(url: string)
    | FetchFailed(fetchError: FetchError)

  /** The token cache after a refresh, the request it sent (none when no token
      was obtained or no request could be built) and the credentials or the
      error. */
  datatype Retrieval = Retrieval(tokenCache: Cache, request: Option<Request>, credentials: Result<Credentials, ProviderError>)

  /** retrieveCredentials: get a token from the provider's token cache, build
      the GET for this account and role with that token, send it, and return
      the parsed credentials as they came. `isUri` says whether java.net.URI
      accepts a string, as HttpGet's constructor requires; `exchange` is the
      HTTP client plus the JSON parsing of its response. */
  function RetrieveCredentials(p: Provider, cache: Cache, now: int, run: ProcessRun,
                               isUri: string -> bool,
                               exchange: Request -> Result<Credentials, FetchError>): (r: Retrieval)
    ensures var call := GetAccessToken(cache, now, run);
      var url := RequestUrl(p.credentialsServiceUrl, p.accountId, p.roleName);
      && r.tokenCache == call.cache
      && (r.request.Some? <==> call.token.Ok? && isUri(url))
      && (r.request.Some? ==>
            && BearerToken(r.request.value.authorization) == Some(call.token.value)
            && r.request.value.url == url)
      && (call.token.Err? ==> r.credentials == Err(TokenUnavailable(call.token.error)))
      && (call.token.Ok? && !isUri(url) ==> r.credentials == Err(MalformedUrl(url)))
    ensures r.request.Some? && exchange(r.request.value).Ok? ==> r.credentials == Ok(exchange(r.request.value).value)
    ensures r.request.Some? && exchange(r.request.value).Err? ==> r.credentials == Err(FetchFailed(exchange(r.request.value).error))
  {
    var call := GetAccessToken(cache, now, run);
    match call.token
    case Err(e) => Retrieval(call.cache, None, Err(TokenUnavailable(e)))
    case Ok(token) =>
      var url := RequestUrl(p.credentialsServiceUrl, p.accountId, p.roleName);
      if !isUri(url) then Retrieval(call.cache, None, Err(MalformedUrl(url)))
      else
        var request := Request(url, AuthorizationHeader(token));
        AuthorizationHeaderRoundTrip(token, request.authorization);
        match exchange(request)
        case Ok(credentials) => Retrieval(call.cache, Some(request), Ok(credentials))
        case Err(e) => Retrieval(call.cache, Some(request), Err(FetchFailed(e)))
  }

  /** What getSessionCredentials makes of the held credentials: the three
      secrets, unchanged. */
  function SessionCredentialsOf(c: Credentials): (s: SessionCredentials)
    ensures s.accessKeyId == c.accessKeyId && s.secretKey == c.secretAccessKey && s.sessionToken == c.sessionToken
  {
    SessionCredentials(c.accessKeyId, c.secretAccessKey, c.sessionToken)
  }

  /** The token cache after getCredentials, and what it returned. */
  datatype Answer = Answer(tokenCache: Cache, credentials: Result<SessionCredentials, ProviderError>)

  /** getCredentials when the refreshable task answers it with a blocking
      refresh (always so on the first call): the fetched credentials are
      passed through, and any failure surfaces to the caller. */
  function GetCredentials(p: Provider, cache: Cache, now: int, run: ProcessRun,
                          isUri: string -> bool,
                          exchange: Request -> Result<Credentials, FetchError>): (r: Answer)
    ensures var fetched := RetrieveCredentials(p, cache, now, run, isUri, exchange);
      && r.tokenCache == fetched.tokenCache
      && (r.credentials.Ok? <==> fetched.credentials.Ok?)
      && (r.credentials.Ok? ==>
            && r.credentials.value.accessKeyId == fetched.credentials.value.accessKeyId
            && r.credentials.value.secretKey == fetched.credentials.value.secretAccessKey
            && r.credentials.value.sessionToken == fetched.credentials.value.sessionToken)
      && (r.credentials.Err? ==> r.credentials.error == fetched.credentials.error)
  {
    var fetched := RetrieveCredentials(p, cache, now, run, isUri, exchange);
    match fetched.credentials
    case Ok(c) => Answer(fetched.tokenCache, Ok(SessionCredentialsOf(c)))
    case Err(e) => Answer(fetched.tokenCache, Err(e))
  }
}

=== FILE: java_text.dfy ===
/** Java's String.trim, which the token command's output goes through before
    it becomes a bearer token. */
module JavaText {

  /** The characters String.trim removes: every char up to and including the
      space, U+0000..U+0020. */
  predicate IsTrimmable(c: char) {
    c <= ' '
  }

  /** Every character of `s[lo..hi]` would be removed by a trim. */
  predicate AllTrimmable(s: string, lo: int, hi: int)
    requires 0 <= lo && hi <= |s|
  {
    forall k :: lo <= k < hi ==> IsTrimmable(s[k])
  }

  /** Neither end of `s` is a trimmable character. */
  predicate IsTrimmed(s: string) {
    |s| == 0 || (!IsTrimmable(s[0]) && !IsTrimmable(s[|s| - 1]))
  }

  /** Scanning forward from `i`: the index of the first non-trimmable
      character, or |s| when there is none. */
  function SkipLeading(s: string, i: nat): (k: nat)
    requires i <= |s|
    ensures i <= k <= |s|
    ensures AllTrimmable(s, i, k)
    ensures k < |s| ==> !IsTrimmable(s[k])
    decreases |s| - i
  {
    if i < |s| && IsTrimmable(s[i]) then SkipLeading(s, i + 1) else i
  }

  /** Scanning backward from `j` but not below `lo`: the index just past the
      last non-trimmable character, or `lo` when there is none. */
  function SkipTrailing(s: string, lo: nat, j: nat): (k: nat)
    requires lo <= j <= |s|
    ensures lo <= k <= j
    ensures AllTrimmable(s, k, j)
    ensures lo < k ==> !IsTrimmable(s[k - 1])
    decreases j
  {
    if lo < j && IsTrimmable(s[j - 1]) then SkipTrailing(s, lo, j - 1) else j
  }

  /** Where the trimmed string starts in `s`. */
  function TrimStartIndex(s: string): nat {
    SkipLeading(s, 0)
  }

  /** Where the trimmed string ends in `s`. */
  function TrimEndIndex(s: string): (e: nat)
    ensures TrimStartIndex(s) <= e <= |s|
  {
    SkipTrailing(s, TrimStartIndex(s), |s|)
  }

  /** String.trim: the infix of `s` left once the trimmable characters at both
      ends are removed. Everything cut off is trimmable, and what is left
      neither starts nor ends with a trimmable character. */
  function Trim(s: string): (r: string)
    ensures IsTrimmed(r)
    ensures AllTrimmable(s, 0, TrimStartIndex(s)) && AllTrimmable(s, TrimEndIndex(s), |s|)
    ensures |r| == TrimEndIndex(s) - TrimStartIndex(s)
  {
    s[TrimStartIndex(s)..TrimEndIndex(s)]
  }

  /** The trimmed string is pinned down by its bounds: any `st <= len` such
      that everything outside `s[st..len]` is trimmable and, unless the range
      is empty, both ends of it are not, delimit exactly Trim(s). */
  lemma TrimUnique(s: string, st: nat, len: nat)
    requires st <= len <= |s|
    requires AllTrimmable(s, 0, st) && AllTrimmable(s, len, |s|)
    requires st < len ==> !IsTrimmable(s[st]) && !IsTrimmable(s[len - 1])
    ensures Trim(s) == s[st..len]
  {
  }

  /** Trimming an already trimmed string changes nothing. */
  lemma TrimOfTrimmed(s: string)
    requires IsTrimmed(s)
    ensures Trim(s) == s
  {
    TrimUnique(s, 0, |s|);
  }

  /** String.trim is idempotent. */
  lemma TrimIdempotent(s: string)
    ensures Trim(Trim(s)) == Trim(s)
  {
    TrimOfTrimmed(Trim(s));
  }

  /** The bounds String.trim computes, by the JDK's two scans: `st` skips the
      leading trimmable characters, then `len` backs off the trailing ones;
      the trimmed string is `s[st..len]`. */
  method TrimBounds(s: string) returns (st: nat, len: nat)
    ensures st <= len <= |s|
    ensures AllTrimmable(s, 0, st) && AllTrimmable(s, len, |s|)
    ensures st < len ==> !IsTrimmable(s[st]) && !IsTrimmable(s[len - 1])
    ensures s[st..len] == Trim(s)
  {
    len := |s|;
    st := 0;
    while st < len && IsTrimmable(s[st])
      invariant st <= len == |s|
      invariant AllTrimmable(s, 0, st)
    {
      st := st + 1;
    }
    while st < len && IsTrimmable(s[len - 1])
      invariant st <= len <= |s|
      invariant AllTrimmable(s, 0, st)
      invariant AllTrimmable(s, len, |s|)
      invariant st < len ==> !IsTrimmable(s[st])
    {
      len := len - 1;
    }
    TrimUnique(s, st, len);
  }
}

=== FILE: results.dfy ===
/** Failure-carrying wrappers shared by the model: Option stands for a Java
    reference that may be null, Result for a call that returns a value or
    throws. */
module Results {

  /** A possibly-null Java reference. */
  datatype Option<+T> = None | Some(value: T)

  /** The outcome of a Java call: its return value, or the exception it throws. */
  datatype Result<+T, +E> = Ok(value: T) | Err(error: E)
}

=== FILE: scenarios.dfy ===
/** The provider's unit-test scenarios, stated over the model. */
module ProviderScenarios {
  import opened Results
  import opened TokenCommand
  import opened TokenCache
  import opened CredentialProvider

  /** A Builder without a role name, or without an account id, is refused at
      construction: no provider exists, so nothing can be fetched. */
  lemma MissingIdentifierRejected()
    ensures NewBuilder(Some("1111111"), None) == Err(MissingAccountIdOrRoleName)
    ensures NewBuilder(None, Some("PowerUser")) == Err(MissingAccountIdOrRoleName)
  {
  }

  /** A provider for account "1111111" and role "test" with a supplied HTTP
      client, whose exchange answers with keys "keyid"/"key" and session token
      "test", hands out exactly those session credentials once a token is
      available and the URL parses as a URI; the request goes to the default
      service for that account and role. */
  lemma SuccessfulCredentials(client: nat, cache: Cache, now: int, run: ProcessRun,
                              isUri: string -> bool, expiration: int)
    requires GetAccessToken(cache, now, run).token.Ok?
    requires isUri(RequestUrl(DefaultServiceUrl, "1111111", "test"))
    ensures var b := NewBuilder(Some("1111111"), Some("test"));
      && b.Ok?
      && var p := Build(WithHttpClient(b.value, Some(SuppliedHttpClient(client))));
      && p.httpClient == SuppliedHttpClient(client)
      && p.credentialsProvider == DefaultZtokenProvider
      && var exchange := (_: Request) => Ok(Credentials("keyid", "key", "test", expiration));
      && RetrieveCredentials(p, cache, now, run, isUri, exchange).request.value.url
         == RequestUrl(DefaultServiceUrl, "1111111", "test")
      && GetCredentials(p, cache, now, run, isUri, exchange).credentials
         == Ok(SessionCredentials("keyid", "key", "test"))
  {
  }

  /** A role name with a space makes a URL that java.net.URI rejects (a space
      is never legal in a URI), so HttpGet's constructor throws and no
      request is sent, whatever the exchange would answer. */
  lemma RoleNameWithSpaceSendsNothing(p: Provider, cache: Cache, now: int, run: ProcessRun,
                                      isUri: string -> bool,
                                      exchange: Request -> Result<Credentials, FetchError>)
    requires GetAccessToken(cache, now, run).token.Ok?
    requires forall u :: ' ' in u ==> !isUri(u)
    requires p.roleName == "Power User"
    ensures RetrieveCredentials(p, cache, now, run, isUri, exchange).request.None?
    ensures RetrieveCredentials(p, cache, now, run, isUri, exchange).credentials
         == Err(MalformedUrl(RequestUrl(p.credentialsServiceUrl, p.accountId, "Power User")))
  {
  }
}

=== FILE: token_cache.dfy ===
/** ZtokenProvider's token cache: at most one immutable entry, refreshed by
    running the token command when it is missing or more than five minutes
    old. Time (`now`, in milliseconds) and the command's run are parameters;
    the cache is updated sequentially. */
module TokenCache {
  import opened Results
  import opened TokenCommand
  import JavaText

  /** How long a token is served from the cache: five minutes, in milliseconds. */
  const CacheDuration: int := 5 * 60 * 1000

  /** A token and the time it was fetched. */
  datatype Entry = Entry(timestamp: int, value: string)

  /** The provider's atomic reference: no entry yet, or the current one. */
  datatype Cache = Empty | Cached(entry: Entry)

  /** The entry may still be served at `now`: it is at most CacheDuration
      milliseconds old. An entry stamped after `now` is fresh too. */
  predicate IsFresh(e: Entry, now: int) {
    now - e.timestamp <= CacheDuration
  }

  /** A call at `now` has to run the token command. */
  predicate MustRefresh(cache: Cache, now: int) {
    cache.Empty? || !IsFresh(cache.entry, now)
  }

  /** The pure decision applied to the cached entry on every call: keep a
      fresh entry, otherwise take what the token command yields (`outcome`)
      and stamp its token with `now`. A failed command yields its error and no
      entry. `outcome` is consulted only when the command has to run. */
  function Update(cache: Cache, now: int, outcome: Result<string, TokenError>): (r: Result<Entry, TokenError>)
    ensures !MustRefresh(cache, now) ==> r == Ok(cache.entry)
    ensures MustRefresh(cache, now) ==> (r.Ok? <==> outcome.Ok?)
    ensures MustRefresh(cache, now) && r.Ok? ==> r.value == Entry(now, outcome.value)
    ensures MustRefresh(cache, now) && r.Err? ==> r.error == outcome.error
    ensures r.Ok? ==> IsFresh(r.value, now)
  {
    if cache.Empty? || cache.entry.timestamp < now - CacheDuration then
      match outcome
      case Ok(token) => Ok(Entry(now, token))
      case Err(e) => Err(e)
    else
      Ok(cache.entry)
  }

  /** The cache after a call, and what the call returned. */
  datatype TokenCall = TokenCall(cache: Cache, token: Result<string, TokenError>)

  /** getAccessToken as written: update the reference with the command as the
      code runs it, then read the token of the entry the reference now holds.
      A failed update throws and leaves the reference as it was. The failure
      is an IOException except when the process is still running after the
      wait: that IllegalThreadStateException passes both catch clauses. */
  function GetAccessToken(cache: Cache, now: int, run: ProcessRun): (r: TokenCall)
    ensures r.token.Ok? ==> r.cache.Cached? && r.token.value == r.cache.entry.value
    ensures r.token.Ok? ==> IsFresh(r.cache.entry, now)
    ensures r.token.Err? ==> r.cache == cache
    ensures r.token.Err? ==> (IsIOException(r.token.error) <==> !run.StillRunning?)
    ensures !MustRefresh(cache, now) ==> r == TokenCall(cache, Ok(cache.entry.value))
    ensures MustRefresh(cache, now) ==> (r.token.Ok? <==> run.Exited? && run.exitCode == 0)
    ensures MustRefresh(cache, now) && r.token.Ok? ==> r.cache == Cached(Entry(now, r.token.value))
    ensures MustRefresh(cache, now) && r.token.Ok? ==> r.token.value == JavaText.Trim(run.stdout)
    ensures MustRefresh(cache, now) && run.StillRunning? ==> r.token == Err(IllegalThreadState)
  {
    match Update(cache, now, ZignAsWritten(run))
    case Ok(e) => TokenCall(Cached(e), Ok(e.value))
    case Err(err) => TokenCall(cache, Err(err))
  }

  /** The cache with the corrected command: every failure is an IOException,
      and it decides exactly as the code does except on a refresh whose
      process is still running after the wait. */
  lemma CorrectedCacheFailsOnlyWithIOException(cache: Cache, now: int, run: ProcessRun)
    ensures Update(cache, now, Zign(run)).Err? ==> IsIOException(Update(cache, now, Zign(run)).error)
    ensures Update(cache, now, Zign(run)) == Update(cache, now, ZignAsWritten(run))
        <==> !(MustRefresh(cache, now) && run.StillRunning?)
  {
  }

  /** An entry exactly CacheDuration milliseconds old is still served: the
      expiry comparison is strict. */
  lemma ServedAtExactExpiry(e: Entry, run: ProcessRun)
    ensures GetAccessToken(Cached(e), e.timestamp + CacheDuration, run)
         == TokenCall(Cached(e), Ok(e.value))
  {
  }

  /** One millisecond later the entry is replaced, or the call fails. */
  lemma RefreshedJustAfterExpiry(e: Entry, run: ProcessRun)
    ensures var now := e.timestamp + CacheDuration + 1;
      var r := GetAccessToken(Cached(e), now, run);
      && (r.token.Ok? ==> r.cache == Cached(Entry(now, JavaText.Trim(run.stdout))))
      && (r.token.Err? ==> r.cache == Cached(e))
  {
  }

  /** One call of a sequence: when it happens, and how the command would run
      if it were started. */
  datatype Call = Call(now: int, run: ProcessRun)

  /** The cache after a sequence of calls, each call's result, and how many
      calls ran the token command. */
  datatype Trace = Trace(cache: Cache, tokens: seq<Result<string, TokenError>>, commandRuns: nat)

  /** Successive getAccessToken calls on one provider. */
  function Replay(cache: Cache, calls: seq<Call>): (t: Trace)
    ensures |t.tokens| == |calls|
    ensures t.commandRuns <= |calls|
    decreases |calls|
  {
    if |calls| == 0 then
      Trace(cache, [], 0)
    else
      var step := GetAccessToken(cache, calls[0].now, calls[0].run);
      var rest := Replay(step.cache, calls[1..]);
      var ran := if MustRefresh(cache, calls[0].now) then 1 else 0;
      Trace(rest.cache, [step.token] + rest.tokens, rest.commandRuns + ran)
  }

  /** Every call made while an entry is fresh returns that entry's token,
      the command never runs and the entry stays in place. */
  lemma {:induction false} FreshEntryServesAll(e: Entry, calls: seq<Call>)
    requires forall i :: 0 <= i < |calls| ==> IsFresh(e, calls[i].now)
    ensures Replay(Cached(e), calls).cache == Cached(e)
    ensures Replay(Cached(e), calls).commandRuns == 0
    ensures forall i :: 0 <= i < |calls| ==> Replay(Cached(e), calls).tokens[i] == Ok(e.value)
    decreases |calls|
  {
    if |calls| > 0 {
      FreshEntryServesAll(e, calls[1..]);
      var rest := Replay(Cached(e), calls[1..]);
      assert Replay(Cached(e), calls).tokens == [Ok(e.value)] + rest.tokens;
    }
  }

  /** Starting from an empty cache, if the first call fetches a token, every
      later call within five minutes of it returns the identical token, and
      the command has run once in all. */
  lemma {:induction false} OneRunPerWindow(calls: seq<Call>)
    requires |calls| > 0
    requires GetAccessToken(Empty, calls[0].now, calls[0].run).token.Ok?
    requires forall i :: 0 <= i < |calls| ==> calls[i].now <= calls[0].now + CacheDuration
    ensures Replay(Empty, calls).commandRuns == 1
    ensures forall i :: 0 <= i < |calls| ==> Replay(Empty, calls).tokens[i] == Replay(Empty, calls).tokens[0]
  {
    var first := GetAccessToken(Empty, calls[0].now, calls[0].run);
    var e := first.cache.entry;
    assert e.timestamp == calls[0].now;
    forall i | 0 <= i < |calls[1..]|
      ensures IsFresh(e, calls[1..][i].now)
    {
      assert calls[1..][i] == calls[i + 1];
    }
    FreshEntryServesAll(e, calls[1..]);
    var rest := Replay(first.cache, calls[1..]);
    assert Replay(Empty, calls).tokens == [first.token] + rest.tokens;
  }
}

=== FILE: token_command.dfy ===
/** Obtaining a fresh bearer token by running the `ztoken token` command
    (`zign` in ZtokenProvider). The process itself is not modelled: a run is
    described by how it ended, and the model decides what the call returns. */
module TokenCommand {
  import opened Results
  import opened JavaText

  /** How one run of `ztoken token` ended, in the order the code observes it:
      the process may fail to start, its standard output may fail to be read,
      the wait of up to 5 seconds may be interrupted, the process may still be
      running when the wait ends, or it has exited with a code after writing
      `stdout`. */
  datatype ProcessRun =
    | StartFailed
    | ReadFailed
    | WaitInterrupted
    | StillRunning
    | Exited(exitCode: int, stdout: string)

  /** Why no token was obtained. Every variant but IllegalThreadState is
      raised as an IOException. */
  datatype TokenError =
    | CommandNotStarted
    | OutputNotRead
    | ExitCode(code: int)
    | TookTooLong
    | NotTerminated
    | IllegalThreadState

  /** The error is a checked IOException, the only kind getAccessToken declares. */
  predicate IsIOException(e: TokenError) {
    !e.IllegalThreadState?
  }

  /** The command as the code is written: when the 5-second wait ends with the
      process still running, `exitValue()` is called on a live process and
      throws the unchecked IllegalThreadStateException. */
  function ZignAsWritten(run: ProcessRun): (r: Result<string, TokenError>)
    ensures r.Ok? <==> run.Exited? && run.exitCode == 0
    ensures r.Ok? ==> r.value == Trim(run.stdout)
    ensures run.Exited? && run.exitCode != 0 ==> r == Err(ExitCode(run.exitCode))
    ensures run.StillRunning? ==> r == Err(IllegalThreadState)
  {
    match run
    case StartFailed => Err(CommandNotStarted)
    case ReadFailed => Err(OutputNotRead)
    case WaitInterrupted => Err(TookTooLong)
    case StillRunning => Err(IllegalThreadState)
    case Exited(code, stdout) =>
      var output := Trim(stdout);
      if code != 0 then Err(ExitCode(code)) else Ok(output)
  }

  /** The command with a process that outlives the wait reported as an
      IOException, as the time limit evidently intends. The cache as written
      uses ZignAsWritten; TokenCache.CorrectedCacheFailsOnlyWithIOException
      states the cache built on this corrected version.
      A token is returned exactly when the command exits with code 0, and it
      is the command's output with the surrounding whitespace and control
      characters removed; a non-zero exit yields an error carrying that code. */
  function Zign(run: ProcessRun): (r: Result<string, TokenError>)
    ensures r.Ok? <==> run.Exited? && run.exitCode == 0
    ensures r.Ok? ==> r.value == Trim(run.stdout) && IsTrimmed(r.value)
    ensures run.Exited? && run.exitCode != 0 ==> r == Err(ExitCode(run.exitCode))
    ensures r.Err? ==> IsIOException(r.error)
  {
    match run
    case StillRunning => Err(NotTerminated)
    case _ => ZignAsWritten(run)
  }

  /** The discrepancy: a process still running after the 5-second wait makes
      the command fail with an exception that is not an IOException, so it
      escapes getAccessToken's declared `throws IOException`. */
  lemma TimeoutEscapesAsUnchecked()
    ensures ZignAsWritten(StillRunning).Err?
    ensures !IsIOException(ZignAsWritten(StillRunning).error)
  {
  }

  /** The corrected command differs from the code only on a process that is
      still running after the wait. */
  lemma ZignDiffersOnlyOnTimeout(run: ProcessRun)
    ensures Zign(run) == ZignAsWritten(run) <==> !run.StillRunning?
  {
  }
}
